=== FILE: README.md ===
# Control-surface sampling, debounce and dispatch

This project models the core of `sss.py`. That program polls four MCP3008
analog-to-digital converters on one SPI bus and forwards the controls it
reads as OSC messages:

- 6 potentiometers, sent every pass with their raw reading;
- 20 toggle switches and 4 push-buttons, each thresholded to a bit,
  debounced per channel, and sent only when the debounce gate accepts a change.

The model is a set of pure functions. The hardware reads of one pass become
a `Samples` value holding one raw integer per channel. `client.send_message`
becomes an `Event` in the returned list; its address is `Address.AddressOf`
of the event's channel. `time.monotonic()` becomes an integer clock reading
in milliseconds, so `DEBOUNCE_TIME = 0.05` is `DebounceTicks = 50`. An
exception inside the main loop is an optional `Fault`: reading a channel
raises, or sending a channel's event raises.

Modules:

- `Layout`: the channel registry. It holds the three groups, the pins each
  channel is bound to, and an independent wiring map back from pin to channel.
- `Classifier`: the strict threshold test against `DIGITAL_THRESHOLD = 32768`.
- `Debounce`: the per-channel gate. It also replays the gate over a sequence
  of attempts.
- `Address`: the `/POT{i}`, `/TOGGLE{i}`, `/BUTTON{i}` address strings and
  their injectivity.
- `Dispatch`: one pass of the `while True` loop, and the loop over many passes.
- `CycleProperties`: what a pass does without an exception, and how much of
  it survives when an exception is raised part-way through.
- `RunProperties`: the loop over many passes seen from one toggle or button.
  Without exceptions it is that channel's gate replayed over the clock
  readings and classified readings of successive passes. The debounce
  window, which only matters between passes, therefore holds for the loop
  itself.

Behaviour the code fixes that is easy to misread:

- **Cold start.** Timestamps start at `0`, not "unset" (sss.py:47-48). So a
  channel's first reading is accepted only when the clock already reads more
  than the debounce time. It is not accepted unconditionally. Consider readings
  40000, 40000, 5000, 5000 at 0, 10, 20 and 80 ms on a clock that starts at 0.
  Only the 0 at 80 ms is sent (`Debounce.ScenarioFromClockZero`). On a clock
  already a second old, the 1 at the first reading and the 0 at +80 ms are sent
  (`Debounce.ScenarioRunningClock`).
- **Error scope.** One `try` wraps the whole pass (sss.py:65, 105-108). A
  failed send therefore skips every later channel of that pass. It does not
  move on to the next channel.
- **Lost events.** A toggle or button commits its new state before it sends
  (sss.py:81-85, 94-98). If the send raises, the event is lost. The next pass
  reading the same value does not send it
  (`CycleProperties.LostEventNotResent`, `CycleProperties.ButtonLostEventNotResent`).
  Nor does any later run of passes that keeps reading that value
  (`RunProperties.LostEventNeverResent`).

## Model

| member | source | states |
|---|---|---|
| `Classifier.Classify` | sss.py:53-55 | a raw reading classifies as 1 exactly when it is strictly above the threshold 32768 |
| `Classifier.ClassifyThreshold` | sss.py:50-55 | the digital state is 1 exactly when the raw reading is strictly above 32768 and 0 exactly when it is at or below it |
| `Classifier.ClassifyMonotone` | sss.py:53-55 | a larger raw reading never gives a lower digital state |
| `Classifier.ClassifyBoundary` | sss.py:50-55 | 32768 reads as 0, 32769 as 1, 0 as 0 and full scale 65535 as 1 |
| `Layout.GroupSizes` | sss.py:25-43 | the layout has 6 pots, 20 toggles and 4 push-buttons |
| `Layout.TogglePinLayout` | sss.py:31-41 | toggle i is on chip 1 + i div 8, pin i mod 8, for i < 16, and on chip 3, pin i - 16, for 16 <= i < 20 |
| `Layout.ButtonPinLayout` | sss.py:42-43 | push-button j is on chip 3, pin 4 + j |
| `Layout.PinOf` | sss.py:25-43 | a channel has a converter input exactly when its index is below its group's size (6 pots, 20 toggles, 4 buttons), and that input is a real one (chip < 4, pin < 8) from the group's own pin list |
| `Layout.PinOfRoundTrip` | sss.py:21-43 | every channel is bound to a real converter input (chip < 4, pin < 8), and the wiring map sends that input back to the channel |
| `Layout.ChannelOnRoundTrip` | sss.py:25-43 | every input the wiring map assigns to a channel is the one the layout binds it to |
| `Layout.PinsDistinct` | sss.py:25-43 | no two channels, in any group, share a converter input |
| `Address.AddressOf` | sss.py:72-98 | every address is a `/` followed by the group's tag (`POT`, `TOGGLE` or `BUTTON`) and then at least one more character, where the index is written |
| `Address.AddressIndex` | sss.py:72-98 | what follows the slash and the tag in an address is a run of decimal digits only, and it reads back as the channel's index |
| `Address.DecimalRoundTrip` | sss.py:72 | the decimal index in an address reads back as the index |
| `Address.AddressInjective` | sss.py:72-98 | distinct channels send to distinct addresses, so the three namespaces do not overlap and indices are not confused |
| `Address.AddressExamples` | sss.py:72-98 | pot 5, toggle 19 and button 0 send to `/POT5`, `/TOGGLE19` and `/BUTTON0` |
| `Debounce.Gate` | sss.py:78-82 | an accepted reading is stored with the current time, a rejected one leaves value and timestamp as they were, and the stored value only changes through acceptance |
| `Debounce.GateIsGatedOrKept` | sss.py:78-82 | the gate either leaves the state as it was or, having accepted, records the reading stamped now |
| `Debounce.GateRejectsRepeat` | sss.py:78 | a reading equal to the stored value is rejected and changes nothing |
| `Debounce.GateDifferingReading` | sss.py:78-79 | a differing reading is accepted exactly when strictly more than the debounce time has passed since the last accepted change, and a gap of exactly the debounce time is rejected |
| `Debounce.ColdStart` | sss.py:45-48 | from the initial state (no value, timestamp 0) the first reading is accepted exactly when the clock reads more than the debounce time |
| `Debounce.BlockedRunChangesNothing` | sss.py:78-82 | any run of attempts that each repeat the stored value or fall inside the window leaves value and timestamp unchanged and reports nothing, so rejected attempts never move the window |
| `Debounce.WindowMeasuredFromAcceptance` | sss.py:78-82 | after a change accepted at t, whatever blocked attempts come in between, the first differing reading later than t + debounce time is accepted and is the only one reported |
| `Debounce.SteadyReadingReportedOnce` | sss.py:78-82 | once a value is accepted, repeating it at any times is never reported again |
| `Debounce.ScenarioFromClockZero` | sss.py:45-55 | readings 40000, 40000, 5000, 5000 at 0, 10, 20, 80 ms from the initial state report only 0 at 80 ms |
| `Debounce.ScenarioRunningClock` | sss.py:45-55 | the same readings at 1000, 1010, 1020, 1080 ms report 1 at 1000 ms and 0 at 1080 ms |
| `Dispatch.Initial` | sss.py:45-48 | the state arrays start with one entry per toggle (20) and per button (4), all with no value and timestamp 0 |
| `Dispatch.PotLoop` | sss.py:69-72 | the pot loop sends pot i's raw reading under index i, in order; an exception on pot k stops it after exactly k events |
| `Dispatch.DigitalLoop` | sss.py:75-98 | the toggle or button loop keeps one state per channel, and it stops early only for a fault on a channel of its own group that it has reached |
| `Dispatch.DigitalLoopStates` | sss.py:75-98 | whatever the fault, channels the loop has not reached keep their state, and every earlier state is either unchanged or the classified reading stamped now after its gate accepted it |
| `Dispatch.DigitalLoopChannels` | sss.py:75-98 | whatever the fault, the loop sends only channels of its own group that it has reached |
| `Dispatch.DigitalLoopReports` | sss.py:75-98 | whatever the fault, every event the loop sends is for a channel whose gate accepted, and it carries that channel's classified reading |
| `Dispatch.DigitalLoopOrdered` | sss.py:75-98 | whatever the fault, the loop sends its channels in strictly increasing index order |
| `Dispatch.Cycle` | sss.py:64-108 | a pass keeps one state per toggle and per button, and fails to complete only when an exception is raised |
| `Dispatch.CycleStates` | sss.py:64-108 | whatever the fault, each toggle and button state after a pass is either unchanged or the classified reading stamped now after its gate accepted it |
| `Dispatch.CycleSound` | sss.py:69-98 | whatever the fault, each event of a pass is a pot's raw reading or the classified reading of a toggle or button whose gate accepted |
| `Dispatch.CycleOrdered` | sss.py:69-98 | whatever the fault, a pass sends pots, then toggles, then buttons, each group in index order |
| `Dispatch.Run` | sss.py:64-108 | the loop over passes keeps one state per toggle and per button, whatever exceptions cut passes short |
| `Dispatch.RunSplitState` | sss.py:64-108 | running passes in two batches, the second starting from the state the first left (even after a pass cut short by an exception), leaves the same state as running them as one batch |
| `Dispatch.RunSplitEvents` | sss.py:64-108 | running passes in two batches this way sends the first batch's events followed by the second's, exactly what one batch sends |
| `CycleProperties.DigitalLoopSpared` | sss.py:75-98 | a fault elsewhere leaves a loop's processing of its channels exactly as in a pass without a fault |
| `CycleProperties.DigitalLoopCompleteStates` | sss.py:75-95 | without a fault the loop runs to its end and each channel's state becomes its gate's verdict |
| `CycleProperties.DigitalLoopCompleteEvents` | sss.py:75-98 | without a fault a channel's event with its classified reading is sent exactly when its gate accepts |
| `CycleProperties.DigitalLoopSilent` | sss.py:75-98 | a loop in which no gate accepts sends nothing |
| `CycleProperties.DigitalStep` | sss.py:78-85 | on acceptance exactly that channel's state becomes the reading stamped now and exactly one event for it is appended; on rejection nothing changes |
| `CycleProperties.DigitalLoopPrefix` | sss.py:75-98 | with any fault, a loop's events are a prefix of the fault-free loop's events, each state is untouched or the fault-free one, and a loop not cut short is the fault-free loop |
| `CycleProperties.DigitalLoopAbortsAt` | sss.py:76-85 | a read fault on channel k stops before k is touched; a send fault on an accepted k stops after k's state is committed and before its event; a send fault on a rejected k never fires |
| `CycleProperties.CycleFaultFreeStates` | sss.py:75-95 | a pass without an exception completes and sets every toggle and button state to its gate's verdict |
| `CycleProperties.CycleFaultFreeEvents` | sss.py:75-98 | in a pass without an exception a toggle or button event is sent exactly when its gate accepts, carrying the classified reading |
| `CycleProperties.CyclePotsFirst` | sss.py:69-72 | every completed pass begins with exactly six pot events, one `/POT{i}` per pot for i = 0..5 in order with its raw reading, and no pot event comes after them |
| `CycleProperties.CycleFaultIsPrefix` | sss.py:65-108 | with any fault, a pass sends a prefix of the fault-free pass's events, and each state is untouched or the fault-free one |
| `CycleProperties.ToggleSendFailure` | sss.py:81-85 | if toggle k's send raises: k's state is already committed, earlier toggles are processed, later toggles and all buttons are untouched, and only pots and toggles before k were sent |
| `CycleProperties.ButtonSendFailure` | sss.py:94-98 | if button k's send raises: all toggles and earlier buttons are processed, k's state is committed, later buttons are untouched, and the events sent are exactly the pot readings, every accepted toggle and the accepted buttons before k, in that order |
| `CycleProperties.ToggleReadFailure` | sss.py:75-76 | if reading toggle k raises: toggles before k are processed, k and everything after it are untouched |
| `CycleProperties.PotFailure` | sss.py:69-72 | if reading or sending pot k raises: only pots before k were sent and no state changes |
| `CycleProperties.LostEventNotResent` | sss.py:81-85 | after toggle k's send raised, the next pass reading the same value sends nothing for toggle k and leaves its state alone |
| `CycleProperties.ButtonLostEventNotResent` | sss.py:94-98 | after button k's send raised, the next pass reading the same value sends nothing for button k and leaves its state alone |
| `CycleProperties.ColdStartCycle` | sss.py:45-48 | from the initial state, a pass records and sends each toggle's and button's reading exactly when the clock reads more than the debounce time; otherwise it sends only the pots |
| `CycleProperties.NoChannelSentTwice` | sss.py:69-98 | no channel is sent twice in one pass |
| `RunProperties.CycleSentOn` | sss.py:78-98 | in a pass without an exception a toggle or button sends its classified reading exactly once if its gate accepts, and nothing otherwise |
| `RunProperties.RunStatesReplay` | sss.py:64-95 | across passes without exceptions each toggle's and button's state carries over from pass to pass: after the run it is the gate replayed over the channel's (clock reading, classified reading) of each pass, starting from its state before the run |
| `RunProperties.RunSendsAccepted` | sss.py:64-98 | across passes without exceptions each toggle and button sends, in order, exactly the readings its gate accepts when replayed over the run |
| `RunProperties.RunSteadyReadingSilent` | sss.py:64-98 | a channel that already holds value v and keeps reading v through a run without exceptions sends nothing and keeps its state, whatever the clock readings |
| `RunProperties.LostEventNeverResent` | sss.py:64-98 | after a toggle's or button's send raised, the failed pass sent nothing for it, and no later run without exceptions in which it keeps reading the same value ever sends it; it keeps the state committed in the failed pass |

## Left out

- Hardware setup (sss.py:1-6, 18-22): the SPI bus, chip selects, MCP3008 and
  AnalogIn objects are foreign drivers. Readings are given integers in `Samples`.
- OSC client construction and its `exit(1)` path (sss.py:7-16), and message
  encoding. Sending is modelled as appending an `Event`.
- `chan.voltage` and its formatting (sss.py:71): floating point used only for printing.
- Repeated reads of a pot: lines 70 and 72 each read `chan.value`, and on real
  hardware the two may differ. The model reads each channel once per pass.
- Printing, the startup banner, `time.sleep` between passes, and the
  `KeyboardInterrupt` shutdown (sss.py:57-62, 84, 97, 100-110): I/O and timing only.
- Real-valued `time.monotonic()`: the clock is an integer number of
  milliseconds, and only differences and comparisons of clock readings are used.
- Dispatch.Run: its contract states only that the state arrays keep their
  shape across passes. Across passes without exceptions, what it does to each
  channel is stated by `RunProperties.RunStatesReplay` and
  `RunProperties.RunSendsAccepted`. A run that contains exceptions is
  described pass by pass by the `CycleProperties` lemmas, and by how batches
  compose (`Dispatch.RunSplitState`, `Dispatch.RunSplitEvents`). No
  channel-level replay is stated for such a run.
- A fault is one exception per pass. Only the first exception of a pass
  matters, because it ends the pass.

=== FILE: address.dfy ===
/** OSC address patterns `/POT{i}`, `/TOGGLE{i}` and `/BUTTON{i}`, where
    `{i}` is the channel index written in decimal as Python's f-string
    formatting renders a non-negative int: no sign and no leading zeros. */
module Address {
  import opened Layout

  function DigitChar(d: nat): (ch: char)
    requires d < 10
  {
    "0123456789"[d]
  }

  function DigitValue(ch: char): nat {
    if '0' <= ch <= '9' then (ch as int - '0' as int) as nat else 0
  }

  lemma DigitRoundTrip(d: nat)
    requires d < 10
    ensures '0' <= DigitChar(d) <= '9'
    ensures DigitValue(DigitChar(d)) == d
  {
  }

  /** Decimal rendering of a natural number, most significant digit first. */
  function Decimal(n: nat): (s: string)
    ensures |s| >= 1
    ensures forall k :: 0 <= k < |s| ==> '0' <= s[k] <= '9'
    ensures |s| > 1 ==> s[0] != '0'
  {
    if n < 10 then [DigitChar(n)] else Decimal(n / 10) + [DigitChar(n % 10)]
  }

  /** Reads a string of decimal digits back as a number. */
  function ParseDecimal(s: string): nat {
    if |s| == 0 then 0 else ParseDecimal(s[..|s| - 1]) * 10 + DigitValue(s[|s| - 1])
  }

  lemma {:induction false} DecimalRoundTrip(n: nat)
    ensures ParseDecimal(Decimal(n)) == n
  {
    var s := Decimal(n);
    if n < 10 {
      DigitRoundTrip(n);
      assert s[..|s| - 1] == [];
    } else {
      DecimalRoundTrip(n / 10);
      DigitRoundTrip(n % 10);
      assert s[..|s| - 1] == Decimal(n / 10);
    }
  }

  /** The namespace word of a group. */
  function Tag(g: Group): string {
    match g
    case Pot => "POT"
    case Toggle => "TOGGLE"
    case Button => "BUTTON"
  }

  /** The OSC address a channel's events are sent to. */
  function AddressOf(c: Channel): (a: string)
    ensures |a| > 1 + |Tag(c.group)|
    ensures a[0] == '/' && a[1..1 + |Tag(c.group)|] == Tag(c.group)
  {
    "/" + Tag(c.group) + Decimal(c.index)
  }

  /** After the slash and the tag an address holds only decimal digits, and
      they read back as the channel's index. */
  lemma AddressIndex(c: Channel)
    ensures var a, k := AddressOf(c), 1 + |Tag(c.group)|;
      && (forall i :: k <= i < |a| ==> '0' <= a[i] <= '9')
      && ParseDecimal(a[k..]) == c.index
  {
    var a, k := AddressOf(c), 1 + |Tag(c.group)|;
    assert a[k..] == Decimal(c.index);
    DecimalRoundTrip(c.index);
  }

  /** The group of an address can be read off its second character. */
  lemma GroupFromAddress(c: Channel)
    ensures AddressOf(c)[1] == (match c.group case Pot => 'P' case Toggle => 'T' case Button => 'B')
  {
  }

  /** Distinct channels send to distinct addresses: the three namespaces do not
      overlap and within a namespace the index is recoverable from the address. */
  lemma AddressInjective(c1: Channel, c2: Channel)
    requires AddressOf(c1) == AddressOf(c2)
    ensures c1 == c2
  {
    GroupFromAddress(c1);
    GroupFromAddress(c2);
    assert c1.group == c2.group;
    var k := 1 + |Tag(c1.group)|;
    assert AddressOf(c1)[k..] == Decimal(c1.index);
    assert AddressOf(c2)[k..] == Decimal(c2.index);
    DecimalRoundTrip(c1.index);
    DecimalRoundTrip(c2.index);
  }

  lemma AddressExamples()
    ensures AddressOf(Channel(Pot, 5)) == "/POT5"
    ensures AddressOf(Channel(Toggle, 19)) == "/TOGGLE19"
    ensures AddressOf(Channel(Button, 0)) == "/BUTTON0"
  {
    assert Decimal(19) == Decimal(1) + [DigitChar(9)];
  }
}

=== FILE: classifier.dfy ===
/** The digital decision for toggle and button inputs: a raw 16-bit
    converter reading is "on" only when it lies strictly above half scale. */
module Classifier {

  /** A classified digital reading, 0 or 1. */
  type Bit = b: int | 0 <= b <= 1

  const DigitalThreshold: int := 32768

  /** The digital state of a raw reading: 1 when it is strictly above the
      threshold, else 0. */
  function Classify(raw: int): (b: Bit)
    ensures b == 1 <==> raw > DigitalThreshold
  {
    if raw > DigitalThreshold then 1 else 0
  }

  /** The classifier answers 1 exactly above the threshold and 0 at or below it. */
  lemma ClassifyThreshold(raw: int)
    ensures Classify(raw) == 1 <==> raw > DigitalThreshold
    ensures Classify(raw) == 0 <==> raw <= DigitalThreshold
  {
  }

  /** A larger reading never classifies lower. */
  lemma ClassifyMonotone(a: int, b: int)
    requires a <= b
    ensures Classify(a) <= Classify(b)
  {
  }

  /** The threshold itself is off (strict comparison); one above it is on. */
  lemma ClassifyBoundary()
    ensures Classify(DigitalThreshold) == 0
    ensures Classify(DigitalThreshold + 1) == 1
    ensures Classify(0) == 0
    ensures Classify(65535) == 1
  {
  }
}

=== FILE: cycle_properties.dfy ===
/** Properties of one pass of the main loop: what a pass without an
    exception does channel by channel, and exactly how much of it survives
    when a read or a send raises part-way through. */
module CycleProperties {
  import opened Options
  import opened Layout
  import opened Classifier
  import opened Debounce
  import opened Dispatch

  /** A fault outside the first n channels of a group leaves that part of the
      loop exactly as a pass with no fault runs it. */
  lemma {:induction false} DigitalLoopSpared(g: Group, states: seq<ChannelState>, raws: seq<int>, now: int,
                                             fault: Option<Fault>, n: nat)
    requires |raws| == |states| && n <= |states|
    requires Spares(fault, g, n)
    ensures DigitalLoop(g, states, raws, now, fault, n) == DigitalLoop(g, states, raws, now, None, n)
  {
    if n > 0 {
      DigitalLoopSpared(g, states, raws, now, fault, n - 1);
    }
  }

  /** Without a fault the loop runs to the end and every channel's state
      becomes its gate's verdict. */
  lemma {:induction false} DigitalLoopCompleteStates(g: Group, states: seq<ChannelState>, raws: seq<int>, now: int, n: nat)
    requires |raws| == |states| && n <= |states|
    ensures !DigitalLoop(g, states, raws, now, None, n).aborted
    ensures forall j :: 0 <= j < n ==>
              DigitalLoop(g, states, raws, now, None, n).states[j] == Gate(states[j], Classify(raws[j]), now).state
  {
    if n > 0 {
      DigitalLoopCompleteStates(g, states, raws, now, n - 1);
      DigitalLoopStates(g, states, raws, now, None, n - 1);
    }
  }

  /** Without a fault a channel's event is sent exactly when its gate accepts. */
  lemma {:induction false} DigitalLoopCompleteEvents(g: Group, states: seq<ChannelState>, raws: seq<int>, now: int, n: nat)
    requires |raws| == |states| && n <= |states|
    ensures forall j :: 0 <= j < n ==>
              (Event(Channel(g, j), Classify(raws[j])) in DigitalLoop(g, states, raws, now, None, n).events
               <==> Accepts(states[j], Classify(raws[j]), now))
  {
    if n > 0 {
      DigitalLoopCompleteEvents(g, states, raws, now, n - 1);
      DigitalLoopChannels(g, states, raws, now, None, n - 1);
      DigitalStep(g, states, raws, now, None, n);
      var prev := DigitalLoop(g, states, raws, now, None, n - 1).events;
      var r := DigitalLoop(g, states, raws, now, None, n).events;
      var e := Event(Channel(g, n - 1), Classify(raws[n - 1]));
      assert InGroupBelow(prev, g, n - 1);
      assert e !in prev;
      forall j | 0 <= j < n
        ensures Event(Channel(g, j), Classify(raws[j])) in r <==> Accepts(states[j], Classify(raws[j]), now)
      {
        if j < n - 1 {
          assert Event(Channel(g, j), Classify(raws[j])) != e;
        }
      }
    }
  }

  /** One iteration of the loop, for channel n - 1 when no exception is
      raised there: on acceptance exactly that channel's state becomes the
      classified reading stamped with the current time and exactly one event,
      for that channel and carrying that reading, is appended; on rejection
      nothing at all changes. */
  lemma DigitalStep(g: Group, states: seq<ChannelState>, raws: seq<int>, now: int, fault: Option<Fault>, n: nat)
    requires |raws| == |states| && 0 < n <= |states|
    requires Spares(fault, g, n)
    ensures var prev, r := DigitalLoop(g, states, raws, now, fault, n - 1), DigitalLoop(g, states, raws, now, fault, n);
      var v := Classify(raws[n - 1]);
      && (Accepts(states[n - 1], v, now) ==>
            && r.states == prev.states[n - 1 := ChannelState(Some(v), now)]
            && r.events == prev.events + [Event(Channel(g, n - 1), v)])
      && (!Accepts(states[n - 1], v, now) ==> r == prev)
  {
    DigitalLoopStates(g, states, raws, now, fault, n - 1);
    var prev := DigitalLoop(g, states, raws, now, fault, n - 1);
    assert !prev.aborted && prev.states[n - 1] == states[n - 1];
    assert fault != Some(ReadFault(Channel(g, n - 1))) && fault != Some(SendFault(Channel(g, n - 1)));
  }

  /** Whatever the fault, the loop's events are a prefix of the fault-free
      loop's events, each state is either untouched or the fault-free one, and
      a loop that was not cut short is the fault-free loop. */
  lemma {:induction false} DigitalLoopPrefix(g: Group, states: seq<ChannelState>, raws: seq<int>, now: int,
                                             fault: Option<Fault>, n: nat)
    requires |raws| == |states| && n <= |states|
    ensures var r, f := DigitalLoop(g, states, raws, now, fault, n), DigitalLoop(g, states, raws, now, None, n);
      && r.events <= f.events
      && (forall j :: 0 <= j < |states| ==> r.states[j] == states[j] || r.states[j] == f.states[j])
      && (!r.aborted ==> r == f)
  {
    if n > 0 {
      var pr, pf := DigitalLoop(g, states, raws, now, fault, n - 1), DigitalLoop(g, states, raws, now, None, n - 1);
      DigitalLoopPrefix(g, states, raws, now, fault, n - 1);
      DigitalLoopStates(g, states, raws, now, fault, n - 1);
      assert pr.states[n - 1] == states[n - 1];
      if pr.aborted {
        DigitalLoopStates(g, states, raws, now, None, n - 1);
        assert pf.states[n - 1] == states[n - 1];
      } else {
        assert pr == pf;
      }
    }
  }

  /** A fault on channel k of group g, spelled out: a read fault stops the loop
      before channel k is touched; a send fault on an accepted channel stops it
      after channel k's state is committed but before its event is sent; a
      send fault on a channel whose gate rejects never fires. In every case
      the channels before k are exactly as in the fault-free loop. */
  lemma {:induction false} DigitalLoopAbortsAt(g: Group, states: seq<ChannelState>, raws: seq<int>, now: int,
                                               fault: Option<Fault>, n: nat, k: nat)
    requires |raws| == |states| && k < n <= |states|
    requires fault.Some? && fault.value.at == Channel(g, k)
    ensures var r, base := DigitalLoop(g, states, raws, now, fault, n), DigitalLoop(g, states, raws, now, None, k);
      && (fault.value.ReadFault? ==> r == Phase(base.states, base.events, true))
      && (fault.value.SendFault? && Accepts(states[k], Classify(raws[k]), now) ==>
            r == Phase(base.states[k := Gate(states[k], Classify(raws[k]), now).state], base.events, true))
      && (fault.value.SendFault? && !Accepts(states[k], Classify(raws[k]), now) ==>
            r == DigitalLoop(g, states, raws, now, None, n))
  {
    if n == k + 1 {
      DigitalLoopSpared(g, states, raws, now, fault, k);
      DigitalLoopCompleteStates(g, states, raws, now, k);
      DigitalLoopStates(g, states, raws, now, None, k);
    } else {
      DigitalLoopAbortsAt(g, states, raws, now, fault, n - 1, k);
    }
  }

  /** A loop in which no gate accepts sends nothing. */
  lemma {:induction false} DigitalLoopSilent(g: Group, states: seq<ChannelState>, raws: seq<int>, now: int, n: nat)
    requires |raws| == |states| && n <= |states|
    requires forall j :: 0 <= j < n ==> !Accepts(states[j], Classify(raws[j]), now)
    ensures DigitalLoop(g, states, raws, now, None, n).events == []
  {
    if n > 0 {
      DigitalLoopSilent(g, states, raws, now, n - 1);
      DigitalLoopStates(g, states, raws, now, None, n - 1);
    }
  }

  /** The three phases a pass is made of (a helper for the lemmas below). */
  lemma CycleShape(c: Controller, s: Samples, now: int, fault: Option<Fault>)
    requires Fits(c, s)
    ensures var r := Cycle(c, s, now, fault);
      var pots := PotLoop(s.pots, fault, |s.pots|);
      var tog := DigitalLoop(Toggle, c.toggles, s.toggles, now, fault, |c.toggles|);
      var btn := DigitalLoop(Button, c.buttons, s.buttons, now, fault, |c.buttons|);
      && (pots.aborted ==> r == Outcome(c, pots.events, false))
      && (!pots.aborted && tog.aborted ==>
            r == Outcome(Controller(tog.states, c.buttons), PotEvents(s.pots) + tog.events, false))
      && (!pots.aborted && !tog.aborted ==>
            r == Outcome(Controller(tog.states, btn.states), PotEvents(s.pots) + tog.events + btn.events, !btn.aborted))
      && InGroupBelow(tog.events, Toggle, |c.toggles|)
      && InGroupBelow(btn.events, Button, |c.buttons|)
  {
    DigitalLoopChannels(Toggle, c.toggles, s.toggles, now, fault, |c.toggles|);
    DigitalLoopChannels(Button, c.buttons, s.buttons, now, fault, |c.buttons|);
    var pots := PotLoop(s.pots, fault, |s.pots|);
    if !pots.aborted {
      assert pots.events == PotEvents(s.pots)[..|s.pots|];
      assert PotEvents(s.pots)[..|s.pots|] == PotEvents(s.pots);
    }
  }

  /** A pass without an exception updates every toggle's and button's state
      to its gate's verdict. */
  lemma CycleFaultFreeStates(c: Controller, s: Samples, now: int)
    requires Fits(c, s)
    ensures Cycle(c, s, now, None).completed
    ensures forall j :: 0 <= j < |c.toggles| ==>
              Cycle(c, s, now, None).controller.toggles[j] == Gate(c.toggles[j], Classify(s.toggles[j]), now).state
    ensures forall j :: 0 <= j < |c.buttons| ==>
              Cycle(c, s, now, None).controller.buttons[j] == Gate(c.buttons[j], Classify(s.buttons[j]), now).state
  {
    CycleShape(c, s, now, None);
    DigitalLoopCompleteStates(Toggle, c.toggles, s.toggles, now, |c.toggles|);
    DigitalLoopCompleteStates(Button, c.buttons, s.buttons, now, |c.buttons|);
  }

  /** In a pass without an exception a toggle or button event is sent exactly
      when its gate accepts, carrying the classified reading. */
  lemma CycleFaultFreeEvents(c: Controller, s: Samples, now: int)
    requires Fits(c, s)
    ensures forall j :: 0 <= j < |c.toggles| ==>
              (Event(Channel(Toggle, j), Classify(s.toggles[j])) in Cycle(c, s, now, None).events
               <==> Accepts(c.toggles[j], Classify(s.toggles[j]), now))
    ensures forall j :: 0 <= j < |c.buttons| ==>
              (Event(Channel(Button, j), Classify(s.buttons[j])) in Cycle(c, s, now, None).events
               <==> Accepts(c.buttons[j], Classify(s.buttons[j]), now))
  {
    CycleShape(c, s, now, None);
    DigitalLoopCompleteStates(Toggle, c.toggles, s.toggles, now, |c.toggles|);
    DigitalLoopCompleteEvents(Toggle, c.toggles, s.toggles, now, |c.toggles|);
    DigitalLoopCompleteStates(Button, c.buttons, s.buttons, now, |c.buttons|);
    DigitalLoopCompleteEvents(Button, c.buttons, s.buttons, now, |c.buttons|);
    var tog := DigitalLoop(Toggle, c.toggles, s.toggles, now, None, |c.toggles|);
    var btn := DigitalLoop(Button, c.buttons, s.buttons, now, None, |c.buttons|);
    forall j | 0 <= j < |c.toggles|
      ensures Event(Channel(Toggle, j), Classify(s.toggles[j])) !in PotEvents(s.pots) + btn.events
    {
    }
    forall j | 0 <= j < |c.buttons|
      ensures Event(Channel(Button, j), Classify(s.buttons[j])) !in PotEvents(s.pots) + tog.events
    {
    }
  }

  /** Every pass that runs to the end begins with exactly one event per pot
      of the layout, in index order, carrying the raw reading; no later event
      is a pot's. */
  lemma CyclePotsFirst(c: Controller, s: Samples, now: int, fault: Option<Fault>)
    requires Fits(c, s)
    requires Cycle(c, s, now, fault).completed
    ensures var r := Cycle(c, s, now, fault);
      && |r.events| >= GroupSize(Pot)
      && r.events[..GroupSize(Pot)] == PotEvents(s.pots)
      && (forall k :: 0 <= k < |r.events| ==> (r.events[k].channel.group == Pot <==> k < GroupSize(Pot)))
  {
    CycleShape(c, s, now, fault);
    var tog := DigitalLoop(Toggle, c.toggles, s.toggles, now, fault, |c.toggles|);
    var btn := DigitalLoop(Button, c.buttons, s.buttons, now, fault, |c.buttons|);
    NoPotEvents(tog.events, btn.events);
    PotsThenOthers(PotEvents(s.pots), tog.events + btn.events);
  }

  /** Toggle events followed by button events contain no pot event. */
  lemma NoPotEvents(tog: seq<Event>, btn: seq<Event>)
    requires forall k :: 0 <= k < |tog| ==> tog[k].channel.group == Toggle
    requires forall k :: 0 <= k < |btn| ==> btn[k].channel.group == Button
    ensures forall k :: 0 <= k < |tog + btn| ==> (tog + btn)[k].channel.group != Pot
  {
  }

  /** Pot events followed by events of other groups: the first part is
      recovered by slicing and nothing after it is a pot. */
  lemma PotsThenOthers(pots: seq<Event>, others: seq<Event>)
    requires forall k :: 0 <= k < |others| ==> others[k].channel.group != Pot
    ensures (pots + others)[..|pots|] == pots
    ensures forall k :: |pots| <= k < |pots + others| ==> (pots + others)[k].channel.group != Pot
  {
    forall k | |pots| <= k < |pots + others|
      ensures (pots + others)[k].channel.group != Pot
    {
      assert (pots + others)[k] == others[k - |pots|];
    }
  }

  /** Whatever the fault, a pass sends a prefix of what the fault-free pass
      sends, and each channel's state is either untouched or what the
      fault-free pass would have made it. */
  lemma CycleFaultIsPrefix(c: Controller, s: Samples, now: int, fault: Option<Fault>)
    requires Fits(c, s)
    ensures var r, f := Cycle(c, s, now, fault), Cycle(c, s, now, None);
      && r.events <= f.events
      && (forall j :: 0 <= j < |c.toggles| ==>
            r.controller.toggles[j] == c.toggles[j] || r.controller.toggles[j] == f.controller.toggles[j])
      && (forall j :: 0 <= j < |c.buttons| ==>
            r.controller.buttons[j] == c.buttons[j] || r.controller.buttons[j] == f.controller.buttons[j])
      && (r.completed ==> r == f)
  {
    var pots, fpots := PotLoop(s.pots, fault, |s.pots|), PotLoop(s.pots, None, |s.pots|);
    DigitalLoopPrefix(Toggle, c.toggles, s.toggles, now, fault, |c.toggles|);
    DigitalLoopPrefix(Button, c.buttons, s.buttons, now, fault, |c.buttons|);
    var tog, ftog := DigitalLoop(Toggle, c.toggles, s.toggles, now, fault, |c.toggles|),
                     DigitalLoop(Toggle, c.toggles, s.toggles, now, None, |c.toggles|);
    var btn, fbtn := DigitalLoop(Button, c.buttons, s.buttons, now, fault, |c.buttons|),
                     DigitalLoop(Button, c.buttons, s.buttons, now, None, |c.buttons|);
    var f := Cycle(c, s, now, None);
    assert f.events == fpots.events + ftog.events + fbtn.events;
    if pots.aborted {
      assert pots.events <= fpots.events;
    } else {
      assert pots.events == fpots.events;
      if tog.aborted {
        assert pots.events + tog.events <= fpots.events + ftog.events;
      } else {
        assert tog == ftog;
      }
    }
  }

  /** The event of a toggle whose send raised: the rest of the pass is skipped
      (later toggles and all buttons untouched, nothing more sent), the failed
      toggle's new value and timestamp are already committed, its event is not
      among those sent, and the toggles before it are fully processed. */
  lemma ToggleSendFailure(c: Controller, s: Samples, now: int, k: nat)
    requires Fits(c, s)
    requires k < |c.toggles|
    requires Accepts(c.toggles[k], Classify(s.toggles[k]), now)
    ensures var r := Cycle(c, s, now, Some(SendFault(Channel(Toggle, k))));
      && !r.completed
      && r.controller.toggles[k] == ChannelState(Some(Classify(s.toggles[k])), now)
      && (forall j :: 0 <= j < k ==>
            r.controller.toggles[j] == Gate(c.toggles[j], Classify(s.toggles[j]), now).state)
      && (forall j :: k < j < |c.toggles| ==> r.controller.toggles[j] == c.toggles[j])
      && r.controller.buttons == c.buttons
      && r.events == PotEvents(s.pots) + DigitalLoop(Toggle, c.toggles, s.toggles, now, None, k).events
      && (forall e :: e in r.events ==> e.channel.group == Pot || (e.channel.group == Toggle && e.channel.index < k))
  {
    var fault := Some(SendFault(Channel(Toggle, k)));
    var pots := PotLoop(s.pots, fault, |s.pots|);
    assert pots.events == PotEvents(s.pots);
    DigitalLoopAbortsAt(Toggle, c.toggles, s.toggles, now, fault, |c.toggles|, k);
    DigitalLoopCompleteStates(Toggle, c.toggles, s.toggles, now, k);
    DigitalLoopStates(Toggle, c.toggles, s.toggles, now, None, k);
    DigitalLoopChannels(Toggle, c.toggles, s.toggles, now, None, k);
    var base := DigitalLoop(Toggle, c.toggles, s.toggles, now, None, k);
    var r := Cycle(c, s, now, fault);
    forall e | e in r.events
      ensures e.channel.group == Pot || (e.channel.group == Toggle && e.channel.index < k)
    {
      if e !in PotEvents(s.pots) {
        assert e in base.events;
      }
    }
  }

  /** The same for a push-button whose send raised: every toggle has been
      processed, earlier buttons are processed, later ones untouched, and the
      events sent are the fault-free pass's events up to that button's. */
  lemma ButtonSendFailure(c: Controller, s: Samples, now: int, k: nat)
    requires Fits(c, s)
    requires k < |c.buttons|
    requires Accepts(c.buttons[k], Classify(s.buttons[k]), now)
    ensures var r := Cycle(c, s, now, Some(SendFault(Channel(Button, k))));
      && !r.completed
      && r.controller.buttons[k] == ChannelState(Some(Classify(s.buttons[k])), now)
      && (forall j :: 0 <= j < k ==>
            r.controller.buttons[j] == Gate(c.buttons[j], Classify(s.buttons[j]), now).state)
      && (forall j :: k < j < |c.buttons| ==> r.controller.buttons[j] == c.buttons[j])
      && (forall j :: 0 <= j < |c.toggles| ==>
            r.controller.toggles[j] == Gate(c.toggles[j], Classify(s.toggles[j]), now).state)
      && r.events <= Cycle(c, s, now, None).events
      && r.events == PotEvents(s.pots)
                     + DigitalLoop(Toggle, c.toggles, s.toggles, now, None, |c.toggles|).events
                     + DigitalLoop(Button, c.buttons, s.buttons, now, None, k).events
      && (forall e :: e in r.events && e.channel.group == Button ==> e.channel.index < k)
  {
    var fault := Some(SendFault(Channel(Button, k)));
    CycleShape(c, s, now, fault);
    DigitalLoopSpared(Toggle, c.toggles, s.toggles, now, fault, |c.toggles|);
    DigitalLoopCompleteStates(Toggle, c.toggles, s.toggles, now, |c.toggles|);
    DigitalLoopAbortsAt(Button, c.buttons, s.buttons, now, fault, |c.buttons|, k);
    DigitalLoopCompleteStates(Button, c.buttons, s.buttons, now, k);
    DigitalLoopStates(Button, c.buttons, s.buttons, now, None, k);
    DigitalLoopChannels(Button, c.buttons, s.buttons, now, None, k);
    CycleFaultIsPrefix(c, s, now, fault);
    var r := Cycle(c, s, now, fault);
    var tog := DigitalLoop(Toggle, c.toggles, s.toggles, now, fault, |c.toggles|);
    var base := DigitalLoop(Button, c.buttons, s.buttons, now, None, k);
    assert r.events == PotEvents(s.pots) + tog.events + base.events;
    forall e | e in r.events && e.channel.group == Button
      ensures e.channel.index < k
    {
      assert e !in PotEvents(s.pots) + tog.events;
    }
  }

  /** A toggle whose read raised: the pass stops before that toggle's state is
      touched, so it keeps its old value and timestamp. */
  lemma ToggleReadFailure(c: Controller, s: Samples, now: int, k: nat)
    requires Fits(c, s)
    requires k < |c.toggles|
    ensures var r := Cycle(c, s, now, Some(ReadFault(Channel(Toggle, k))));
      && !r.completed
      && (forall j :: 0 <= j < k ==>
            r.controller.toggles[j] == Gate(c.toggles[j], Classify(s.toggles[j]), now).state)
      && (forall j :: k <= j < |c.toggles| ==> r.controller.toggles[j] == c.toggles[j])
      && r.controller.buttons == c.buttons
      && r.events == PotEvents(s.pots) + DigitalLoop(Toggle, c.toggles, s.toggles, now, None, k).events
  {
    var fault := Some(ReadFault(Channel(Toggle, k)));
    var pots := PotLoop(s.pots, fault, |s.pots|);
    assert pots.events == PotEvents(s.pots);
    DigitalLoopAbortsAt(Toggle, c.toggles, s.toggles, now, fault, |c.toggles|, k);
    DigitalLoopCompleteStates(Toggle, c.toggles, s.toggles, now, k);
    DigitalLoopStates(Toggle, c.toggles, s.toggles, now, None, k);
  }

  /** A pot whose read or send raised: the earlier pots have been sent, and
      no toggle or button state changes. */
  lemma PotFailure(c: Controller, s: Samples, now: int, fault: Fault)
    requires Fits(c, s)
    requires fault.at.group == Pot && fault.at.index < |s.pots|
    ensures var r := Cycle(c, s, now, Some(fault));
      && !r.completed
      && r.controller == c
      && r.events == PotEvents(s.pots)[..fault.at.index]
  {
  }

  /** The lost event is not sent again: after a toggle's send raised, a later
      pass that reads the same value for it rejects it at the gate, whatever
      its clock says, so it sends no event for that toggle and keeps its state. */
  lemma LostEventNotResent(c: Controller, s: Samples, now: int, k: nat,
                           s2: Samples, now2: int, fault2: Option<Fault>)
    requires Fits(c, s) && Fits(c, s2)
    requires k < |c.toggles|
    requires Accepts(c.toggles[k], Classify(s.toggles[k]), now)
    requires Classify(s2.toggles[k]) == Classify(s.toggles[k])
    ensures var r := Cycle(c, s, now, Some(SendFault(Channel(Toggle, k))));
      var r2 := Cycle(r.controller, s2, now2, fault2);
      && (forall e :: e in r2.events ==> e.channel != Channel(Toggle, k))
      && r2.controller.toggles[k] == r.controller.toggles[k]
  {
    ToggleSendFailure(c, s, now, k);
    var r := Cycle(c, s, now, Some(SendFault(Channel(Toggle, k))));
    var r2 := Cycle(r.controller, s2, now2, fault2);
    CycleStates(r.controller, s2, now2, fault2);
    CycleSound(r.controller, s2, now2, fault2);
    forall e | e in r2.events
      ensures e.channel != Channel(Toggle, k)
    {
      var i :| 0 <= i < |r2.events| && r2.events[i] == e;
      assert Sound(r2.events[i], r.controller, s2, now2);
    }
  }

  /** The same for a push-button: after button k's send raised, a later pass
      reading the same value neither sends button k nor changes its state. */
  lemma ButtonLostEventNotResent(c: Controller, s: Samples, now: int, k: nat,
                                 s2: Samples, now2: int, fault2: Option<Fault>)
    requires Fits(c, s) && Fits(c, s2)
    requires k < |c.buttons|
    requires Accepts(c.buttons[k], Classify(s.buttons[k]), now)
    requires Classify(s2.buttons[k]) == Classify(s.buttons[k])
    ensures var r := Cycle(c, s, now, Some(SendFault(Channel(Button, k))));
      var r2 := Cycle(r.controller, s2, now2, fault2);
      && (forall e :: e in r2.events ==> e.channel != Channel(Button, k))
      && r2.controller.buttons[k] == r.controller.buttons[k]
  {
    ButtonSendFailure(c, s, now, k);
    var r := Cycle(c, s, now, Some(SendFault(Channel(Button, k))));
    var r2 := Cycle(r.controller, s2, now2, fault2);
    CycleStates(r.controller, s2, now2, fault2);
    CycleSound(r.controller, s2, now2, fault2);
    forall e | e in r2.events
      ensures e.channel != Channel(Button, k)
    {
      var i :| 0 <= i < |r2.events| && r2.events[i] == e;
      assert Sound(r2.events[i], r.controller, s2, now2);
    }
  }

  /** Cold start for a whole pass: from the initial state each toggle and
      button takes its first reading, and sends it, exactly when the clock
      reads more than DebounceTicks; otherwise it stays Unseen and the pass
      sends the pots and nothing else. */
  lemma ColdStartCycle(s: Samples, now: int)
    requires Fits(Initial(), s)
    ensures var r := Cycle(Initial(), s, now, None);
      && (forall j :: 0 <= j < |s.toggles| ==>
            r.controller.toggles[j] == (if now > DebounceTicks then ChannelState(Some(Classify(s.toggles[j])), now) else Unseen))
      && (forall j :: 0 <= j < |s.buttons| ==>
            r.controller.buttons[j] == (if now > DebounceTicks then ChannelState(Some(Classify(s.buttons[j])), now) else Unseen))
      && (forall j :: 0 <= j < |s.toggles| ==>
            (Event(Channel(Toggle, j), Classify(s.toggles[j])) in r.events <==> now > DebounceTicks))
      && (forall j :: 0 <= j < |s.buttons| ==>
            (Event(Channel(Button, j), Classify(s.buttons[j])) in r.events <==> now > DebounceTicks))
      && (now <= DebounceTicks ==> r.events == PotEvents(s.pots))
  {
    var c := Initial();
    CycleShape(c, s, now, None);
    CycleFaultFreeStates(c, s, now);
    CycleFaultFreeEvents(c, s, now);
    if now <= DebounceTicks {
      DigitalLoopSilent(Toggle, c.toggles, s.toggles, now, |c.toggles|);
      DigitalLoopSilent(Button, c.buttons, s.buttons, now, |c.buttons|);
    }
  }

  /** Within one pass no channel is sent twice. */
  lemma NoChannelSentTwice(c: Controller, s: Samples, now: int, fault: Option<Fault>)
    requires Fits(c, s)
    ensures var r := Cycle(c, s, now, fault);
      forall a, b :: 0 <= a < b < |r.events| ==> r.events[a].channel != r.events[b].channel
  {
    CycleOrdered(c, s, now, fault);
  }
}

=== FILE: debounce.dfy ===
/** The per-channel debounce gate for toggles and push-buttons. A channel
    remembers the last value it reported and when it reported it; a new
    reading is passed on only if it differs from that value and strictly more
    than the debounce time has elapsed since the last ACCEPTED change.
    Times are integer ticks of one millisecond. */
module Debounce {
  import opened Options
  import opened Classifier

  /** DEBOUNCE_TIME of 0.05 seconds, in milliseconds. */
  const DebounceTicks: int := 50

  /** The stored state of one channel: the last accepted value (None before
      the first acceptance) and the time of the last accepted change. */
  datatype ChannelState = ChannelState(previous: Option<Bit>, lastChange: int)

  /** The state every channel starts in: no value and a timestamp of 0. */
  const Unseen: ChannelState := ChannelState(None, 0)

  /** The gate's answer and the state after it. */
  datatype Verdict = Verdict(accepted: bool, state: ChannelState)

  /** The two conditions of the source's `if`, read as one predicate. */
  predicate Accepts(s: ChannelState, reading: Bit, now: int) {
    s.previous != Some(reading) && now - s.lastChange > DebounceTicks
  }

  /** One gate decision: accept and record the reading with the current time,
      or reject and leave the state as it is. */
  function Gate(s: ChannelState, reading: Bit, now: int): (v: Verdict)
    ensures v.accepted ==> v.state.previous == Some(reading) && v.state.lastChange == now
    ensures !v.accepted ==> v.state == s
    ensures v.state.previous != s.previous ==> v.accepted
  {
    if Accepts(s, reading, now) then Verdict(true, ChannelState(Some(reading), now))
    else Verdict(false, s)
  }

  /** `after` is a state the gate can leave behind for `before` and this
      reading: either nothing changed, or the reading was accepted and
      recorded with the current time. */
  predicate GatedOrKept(before: ChannelState, after: ChannelState, reading: Bit, now: int) {
    after == before || (Accepts(before, reading, now) && after == ChannelState(Some(reading), now))
  }

  /** The gate's new state is one the predicate above allows. */
  lemma GateIsGatedOrKept(s: ChannelState, reading: Bit, now: int)
    ensures GatedOrKept(s, Gate(s, reading, now).state, reading, now)
  {
  }

  /** A reading equal to the stored value is always rejected and changes nothing. */
  lemma GateRejectsRepeat(s: ChannelState, reading: Bit, now: int)
    requires s.previous == Some(reading)
    ensures !Gate(s, reading, now).accepted
    ensures Gate(s, reading, now).state == s
  {
  }

  /** A differing reading is accepted exactly when the window has elapsed
      strictly; at exactly DebounceTicks it is still rejected. */
  lemma GateDifferingReading(s: ChannelState, reading: Bit, now: int)
    requires s.previous != Some(reading)
    ensures Gate(s, reading, now).accepted <==> now - s.lastChange > DebounceTicks
    ensures now == s.lastChange + DebounceTicks ==> !Gate(s, reading, now).accepted
  {
  }

  /** Cold start: from the initial state the first reading is accepted exactly
      when the clock already reads more than DebounceTicks. */
  lemma ColdStart(reading: Bit, now: int)
    ensures Gate(Unseen, reading, now).accepted <==> now > DebounceTicks
  {
  }

  /** One attempt of a reading at a time. */
  datatype Attempt = Attempt(time: int, reading: Bit)

  /** Runs a channel's gate over a sequence of attempts, in order. */
  function Replay(s: ChannelState, attempts: seq<Attempt>): ChannelState
    decreases |attempts|
  {
    if |attempts| == 0 then s
    else Replay(Gate(s, attempts[0].reading, attempts[0].time).state, attempts[1..])
  }

  /** The accepted readings of a replay, with their times, in order. */
  function Accepted(s: ChannelState, attempts: seq<Attempt>): (acc: seq<Attempt>)
    ensures |acc| <= |attempts|
    ensures forall k :: 0 <= k < |acc| ==> acc[k] in attempts
    decreases |attempts|
  {
    if |attempts| == 0 then []
    else
      var v := Gate(s, attempts[0].reading, attempts[0].time);
      (if v.accepted then [attempts[0]] else []) + Accepted(v.state, attempts[1..])
  }

  /** Every attempt inside the window, or repeating the stored value, is rejected. */
  predicate Blocked(s: ChannelState, a: Attempt) {
    s.previous == Some(a.reading) || a.time - s.lastChange <= DebounceTicks
  }

  /** Rejected attempts never move the window: a run of blocked attempts leaves
      the state, timestamp included, exactly as it was and reports nothing. */
  lemma {:induction false} BlockedRunChangesNothing(s: ChannelState, attempts: seq<Attempt>)
    requires forall k :: 0 <= k < |attempts| ==> Blocked(s, attempts[k])
    ensures Replay(s, attempts) == s
    ensures Accepted(s, attempts) == []
    decreases |attempts|
  {
    if |attempts| > 0 {
      assert Blocked(s, attempts[0]);
      assert Gate(s, attempts[0].reading, attempts[0].time).state == s;
      BlockedRunChangesNothing(s, attempts[1..]);
    }
  }

  /** After a change accepted at time t, whatever attempts arrive in between,
      the first differing reading later than t + DebounceTicks is accepted. */
  lemma {:induction false} WindowMeasuredFromAcceptance(v: Bit, t: int, between: seq<Attempt>, next: Attempt)
    requires forall k :: 0 <= k < |between| ==> Blocked(ChannelState(Some(v), t), between[k])
    requires next.reading != v && next.time > t + DebounceTicks
    ensures Accepted(ChannelState(Some(v), t), between + [next]) == [next]
    ensures Replay(ChannelState(Some(v), t), between + [next]) == ChannelState(Some(next.reading), next.time)
    decreases |between|
  {
    var s := ChannelState(Some(v), t);
    if |between| == 0 {
      assert between + [next] == [next];
      assert [next][1..] == [];
    } else {
      assert (between + [next])[0] == between[0];
      assert (between + [next])[1..] == between[1..] + [next];
      assert Gate(s, between[0].reading, between[0].time).state == s;
      WindowMeasuredFromAcceptance(v, t, between[1..], next);
    }
  }

  /** A steady reading is reported at most once: once accepted, the same value
      repeated any number of times at any times is never reported again. */
  lemma SteadyReadingReportedOnce(v: Bit, t: int, times: seq<int>)
    ensures Accepted(ChannelState(Some(v), t), seq(|times|, k requires 0 <= k < |times| => Attempt(times[k], v))) == []
  {
    var attempts := seq(|times|, k requires 0 <= k < |times| => Attempt(times[k], v));
    assert forall k :: 0 <= k < |attempts| ==> Blocked(ChannelState(Some(v), t), attempts[k]);
    BlockedRunChangesNothing(ChannelState(Some(v), t), attempts);
  }

  /** A run of readings on a clock that starts at 0: raw readings
      40000, 40000, 5000, 5000 at 0, 10, 20 and 80 ms. Because the initial
      timestamp is 0, nothing passes until 80 ms, when the reading 0 does. */
  lemma ScenarioFromClockZero()
    ensures Accepted(Unseen, [Attempt(0, Classify(40000)), Attempt(10, Classify(40000)),
                              Attempt(20, Classify(5000)), Attempt(80, Classify(5000))])
         == [Attempt(80, 0)]
  {
  }

  /** The same scenario on a clock that has been running for a second: the
      first reading (1) passes, the repeat and the early change do not, and
      the change to 0 passes 80 ms after the first acceptance. */
  lemma ScenarioRunningClock()
    ensures Accepted(Unseen, [Attempt(1000, Classify(40000)), Attempt(1010, Classify(40000)),
                              Attempt(1020, Classify(5000)), Attempt(1080, Classify(5000))])
         == [Attempt(1000, 1), Attempt(1080, 0)]
  {
  }
}

=== FILE: dispatch.dfy ===
/** One pass of the controller's main loop: send every pot's raw reading,
    then classify, debounce and (on acceptance) send each toggle, then each
    push-button. The whole pass runs under one exception handler, so an
    exception raised by a read or a send abandons the rest of the pass while
    every state change already made is kept. */
module Dispatch {
  import opened Options
  import opened Layout
  import opened Classifier
  import opened Debounce

  /** One `send_message(address, value)` call; the address is
      `Address.AddressOf(channel)`. */
  datatype Event = Event(channel: Channel, value: int)

  /** The module-level state arrays: one ChannelState per toggle and per button. */
  datatype Controller = Controller(toggles: seq<ChannelState>, buttons: seq<ChannelState>)

  /** The raw reading of every channel in one pass (one read per channel). */
  datatype Samples = Samples(pots: seq<int>, toggles: seq<int>, buttons: seq<int>)

  /** The exception that ends a pass early, if any: reading the named channel
      raises, or sending the named channel's event raises. A send fault only
      fires if the pass gets as far as sending that channel's event. */
  datatype Fault = ReadFault(at: Channel) | SendFault(at: Channel)

  /** What the pot phase did: the events it sent and whether it was cut short. */
  datatype Sent = Sent(events: seq<Event>, aborted: bool)

  /** What a toggle or button phase did: the state array after it, the events
      it sent and whether it was cut short. */
  datatype Phase = Phase(states: seq<ChannelState>, events: seq<Event>, aborted: bool)

  /** What a whole pass did. `completed` is false when an exception ended it. */
  datatype Outcome = Outcome(controller: Controller, events: seq<Event>, completed: bool)

  /** The state arrays as the program starts: every toggle and button Unseen. */
  function Initial(): (c: Controller)
    ensures |c.toggles| == GroupSize(Toggle) == 20
    ensures |c.buttons| == GroupSize(Button) == 4
    ensures forall j :: 0 <= j < |c.toggles| ==> c.toggles[j] == Unseen
    ensures forall j :: 0 <= j < |c.buttons| ==> c.buttons[j] == Unseen
  {
    GroupSizes();
    Controller(seq(GroupSize(Toggle), _ => Unseen), seq(GroupSize(Button), _ => Unseen))
  }

  /** The readings of a pass cover every channel of the layout and line up
      with the state arrays, which hold one state per toggle and per button. */
  predicate Fits(c: Controller, s: Samples) {
    && |s.pots| == GroupSize(Pot)
    && |c.toggles| == GroupSize(Toggle) && |c.buttons| == GroupSize(Button)
    && |s.toggles| == |c.toggles| && |s.buttons| == |c.buttons|
  }

  /** Dispatch order of channels: pots, then toggles, then buttons, each by index. */
  function Rank(g: Group): nat {
    match g
    case Pot => 0
    case Toggle => 1
    case Button => 2
  }

  predicate Before(a: Channel, b: Channel) {
    Rank(a.group) < Rank(b.group) || (a.group == b.group && a.index < b.index)
  }

  /** Events appear in strict dispatch order, so no channel is sent twice. */
  predicate Ordered(es: seq<Event>) {
    forall a, b :: 0 <= a < b < |es| ==> Before(es[a].channel, es[b].channel)
  }

  /** The event every pot sends in a full pass: its raw reading, under its index. */
  function PotEvents(pots: seq<int>): (es: seq<Event>)
    ensures |es| == |pots|
    ensures forall i :: 0 <= i < |es| ==> es[i] == Event(Channel(Pot, i), pots[i])
  {
    seq(|pots|, i requires 0 <= i < |pots| => Event(Channel(Pot, i), pots[i]))
  }

  /** A fault that does not strike group g below index n. */
  predicate Spares(fault: Option<Fault>, g: Group, n: nat) {
    fault.None? || fault.value.at.group != g || fault.value.at.index >= n
  }

  /** The pot loop over the first n pots. A read or send fault on pot k stops
      the pass before pot k's event. */
  function PotLoop(pots: seq<int>, fault: Option<Fault>, n: nat): (r: Sent)
    requires n <= |pots|
    ensures r.aborted <==> !Spares(fault, Pot, n)
    ensures |r.events| == if r.aborted then fault.value.at.index else n
    ensures r.events == PotEvents(pots)[..|r.events|]
  {
    if n == 0 then Sent([], false)
    else
      var prev := PotLoop(pots, fault, n - 1);
      if prev.aborted then prev
      else if fault.Some? && fault.value.at == Channel(Pot, n - 1) then Sent(prev.events, true)
      else Sent(prev.events + [Event(Channel(Pot, n - 1), pots[n - 1])], false)
  }

  /** An event a toggle or button phase may send: the channel's gate accepts
      its classified reading, and the event carries that reading. */
  predicate Reported(e: Event, g: Group, states: seq<ChannelState>, raws: seq<int>, now: int)
    requires |raws| == |states|
  {
    && e.channel.group == g
    && e.channel.index < |states|
    && Accepts(states[e.channel.index], Classify(raws[e.channel.index]), now)
    && e.value == Classify(raws[e.channel.index])
  }

  /** The toggle or button loop over the first n channels of group g. Each
      channel is read and classified; if the gate accepts, its state is
      committed and then its event is sent. */
  function DigitalLoop(g: Group, states: seq<ChannelState>, raws: seq<int>, now: int,
                       fault: Option<Fault>, n: nat): (r: Phase)
    requires |raws| == |states| && n <= |states|
    ensures |r.states| == |states|
    ensures r.aborted ==> !Spares(fault, g, n)
  {
    if n == 0 then Phase(states, [], false)
    else
      var prev := DigitalLoop(g, states, raws, now, fault, n - 1);
      var c := Channel(g, n - 1);
      if prev.aborted then prev
      else if fault == Some(ReadFault(c)) then Phase(prev.states, prev.events, true)
      else
        var v := Gate(prev.states[n - 1], Classify(raws[n - 1]), now);
        if !v.accepted then prev
        else
          var committed := prev.states[n - 1 := v.state];
          if fault == Some(SendFault(c)) then Phase(committed, prev.events, true)
          else Phase(committed, prev.events + [Event(c, v.state.previous.value)], false)
  }

  /** An event a pass may send, judged against the state and readings it started with. */
  predicate Sound(e: Event, c: Controller, s: Samples, now: int)
    requires Fits(c, s)
  {
    match e.channel.group
    case Pot => e.channel.index < |s.pots| && e.value == s.pots[e.channel.index]
    case Toggle => Reported(e, Toggle, c.toggles, s.toggles, now)
    case Button => Reported(e, Button, c.buttons, s.buttons, now)
  }

  /** Each of the first n states is either the state before or the one its
      gate records on acceptance. */
  predicate GatedOrKeptBelow(before: seq<ChannelState>, after: seq<ChannelState>, raws: seq<int>, now: int, n: nat)
    requires |before| == |after| == |raws| && n <= |before|
  {
    forall j :: 0 <= j < n ==> GatedOrKept(before[j], after[j], Classify(raws[j]), now)
  }

  /** Each state after a pass is either the state before it or the one its
      gate records on acceptance. */
  predicate AllGatedOrKept(before: seq<ChannelState>, after: seq<ChannelState>, raws: seq<int>, now: int)
    requires |before| == |after| == |raws|
  {
    GatedOrKeptBelow(before, after, raws, now, |before|)
  }

  /** States from index n on are as they were. */
  predicate KeptFrom(before: seq<ChannelState>, after: seq<ChannelState>, n: nat)
    requires |before| == |after|
  {
    forall j :: n <= j < |before| ==> after[j] == before[j]
  }

  /** Every event is for a channel of group g below index n. */
  predicate InGroupBelow(es: seq<Event>, g: Group, n: nat) {
    forall k :: 0 <= k < |es| ==> es[k].channel.group == g && es[k].channel.index < n
  }

  /** Every event is an accepted channel's classified reading. */
  predicate AllReported(es: seq<Event>, g: Group, states: seq<ChannelState>, raws: seq<int>, now: int)
    requires |raws| == |states|
  {
    forall k :: 0 <= k < |es| ==> Reported(es[k], g, states, raws, now)
  }

  /** Every event of a pass is a pot's raw reading or an accepted channel's classified reading. */
  predicate AllSound(es: seq<Event>, c: Controller, s: Samples, now: int)
    requires Fits(c, s)
  {
    forall k :: 0 <= k < |es| ==> Sound(es[k], c, s, now)
  }

  /** What a toggle or button loop over the first n channels can do to the
      state array, whatever the fault: channels from n on are untouched, and
      each earlier channel is untouched or holds what its gate records on
      acceptance. */
  lemma {:induction false} DigitalLoopStates(g: Group, states: seq<ChannelState>, raws: seq<int>, now: int,
                                             fault: Option<Fault>, n: nat)
    requires |raws| == |states| && n <= |states|
    ensures KeptFrom(states, DigitalLoop(g, states, raws, now, fault, n).states, n)
    ensures GatedOrKeptBelow(states, DigitalLoop(g, states, raws, now, fault, n).states, raws, now, n)
  {
    if n > 0 {
      DigitalLoopStates(g, states, raws, now, fault, n - 1);
      GateIsGatedOrKept(states[n - 1], Classify(raws[n - 1]), now);
    }
  }

  /** Every event a toggle or button loop over the first n channels sends,
      whatever the fault, is for one of those channels. */
  lemma {:induction false} DigitalLoopChannels(g: Group, states: seq<ChannelState>, raws: seq<int>, now: int,
                                               fault: Option<Fault>, n: nat)
    requires |raws| == |states| && n <= |states|
    ensures InGroupBelow(DigitalLoop(g, states, raws, now, fault, n).events, g, n)
  {
    if n > 0 {
      DigitalLoopChannels(g, states, raws, now, fault, n - 1);
    }
  }

  /** Every event a toggle or button loop sends, whatever the fault, is for a
      channel whose gate accepted its classified reading, and carries that
      reading. */
  lemma {:induction false} DigitalLoopReports(g: Group, states: seq<ChannelState>, raws: seq<int>, now: int,
                                              fault: Option<Fault>, n: nat)
    requires |raws| == |states| && n <= |states|
    ensures AllReported(DigitalLoop(g, states, raws, now, fault, n).events, g, states, raws, now)
  {
    if n > 0 {
      DigitalLoopReports(g, states, raws, now, fault, n - 1);
      DigitalLoopStates(g, states, raws, now, fault, n - 1);
    }
  }

  /** A toggle or button loop sends its channels in increasing index order. */
  lemma {:induction false} DigitalLoopOrdered(g: Group, states: seq<ChannelState>, raws: seq<int>, now: int,
                                              fault: Option<Fault>, n: nat)
    requires |raws| == |states| && n <= |states|
    ensures Ordered(DigitalLoop(g, states, raws, now, fault, n).events)
  {
    if n > 0 {
      DigitalLoopOrdered(g, states, raws, now, fault, n - 1);
      DigitalLoopChannels(g, states, raws, now, fault, n - 1);
      var prev := DigitalLoop(g, states, raws, now, fault, n - 1).events;
      var r := DigitalLoop(g, states, raws, now, fault, n).events;
      if r != prev {
        assert r == prev + [r[|prev|]] && r[|prev|].channel == Channel(g, n - 1);
        forall x, y | 0 <= x < y < |r|
          ensures Before(r[x].channel, r[y].channel)
        {
          if y < |prev| {
            assert r[x] == prev[x] && r[y] == prev[y];
          } else {
            assert r[x] == prev[x];
          }
        }
      }
    }
  }

  /** Two ordered runs of events, the first ranked below `bound` and the
      second at or above it, concatenate to an ordered run. */
  lemma OrderedConcat(a: seq<Event>, b: seq<Event>, bound: nat)
    requires Ordered(a) && Ordered(b)
    requires forall i :: 0 <= i < |a| ==> Rank(a[i].channel.group) < bound
    requires forall j :: 0 <= j < |b| ==> Rank(b[j].channel.group) >= bound
    ensures Ordered(a + b)
  {
    forall x, y | 0 <= x < y < |a + b|
      ensures Before((a + b)[x].channel, (a + b)[y].channel)
    {
      if y < |a| {
        assert (a + b)[x] == a[x] && (a + b)[y] == a[y];
      } else if x < |a| {
        assert (a + b)[x] == a[x] && (a + b)[y] == b[y - |a|];
      } else {
        assert (a + b)[x] == b[x - |a|] && (a + b)[y] == b[y - |a|];
      }
    }
  }

  /** One pass of the main loop at clock reading `now`. */
  function Cycle(c: Controller, s: Samples, now: int, fault: Option<Fault>): (r: Outcome)
    requires Fits(c, s)
    ensures Fits(r.controller, s)
    ensures !r.completed ==> fault.Some?
  {
    var pots := PotLoop(s.pots, fault, |s.pots|);
    if pots.aborted then Outcome(c, pots.events, false)
    else
      var tog := DigitalLoop(Toggle, c.toggles, s.toggles, now, fault, |c.toggles|);
      if tog.aborted then Outcome(Controller(tog.states, c.buttons), pots.events + tog.events, false)
      else
        var btn := DigitalLoop(Button, c.buttons, s.buttons, now, fault, |c.buttons|);
        Outcome(Controller(tog.states, btn.states), pots.events + tog.events + btn.events, !btn.aborted)
  }

  /** What a pass can do to the state arrays, whatever the fault: each toggle
      and button state is untouched or holds what its gate records on acceptance. */
  lemma CycleStates(c: Controller, s: Samples, now: int, fault: Option<Fault>)
    requires Fits(c, s)
    ensures AllGatedOrKept(c.toggles, Cycle(c, s, now, fault).controller.toggles, s.toggles, now)
    ensures AllGatedOrKept(c.buttons, Cycle(c, s, now, fault).controller.buttons, s.buttons, now)
  {
    DigitalLoopStates(Toggle, c.toggles, s.toggles, now, fault, |c.toggles|);
    DigitalLoopStates(Button, c.buttons, s.buttons, now, fault, |c.buttons|);
  }

  /** What a pass can send, whatever the fault: every event is a pot's raw
      reading or an accepted channel's classified reading. */
  lemma CycleSound(c: Controller, s: Samples, now: int, fault: Option<Fault>)
    requires Fits(c, s)
    ensures AllSound(Cycle(c, s, now, fault).events, c, s, now)
  {
    DigitalLoopReports(Toggle, c.toggles, s.toggles, now, fault, |c.toggles|);
    DigitalLoopReports(Button, c.buttons, s.buttons, now, fault, |c.buttons|);
  }

  /** Whatever the fault, a pass sends its events in dispatch order (pots,
      then toggles, then buttons, each by index), so no channel is sent twice. */
  lemma CycleOrdered(c: Controller, s: Samples, now: int, fault: Option<Fault>)
    requires Fits(c, s)
    ensures Ordered(Cycle(c, s, now, fault).events)
  {
    var pots := PotLoop(s.pots, fault, |s.pots|);
    var tog := DigitalLoop(Toggle, c.toggles, s.toggles, now, fault, |c.toggles|);
    var btn := DigitalLoop(Button, c.buttons, s.buttons, now, fault, |c.buttons|);
    DigitalLoopChannels(Toggle, c.toggles, s.toggles, now, fault, |c.toggles|);
    DigitalLoopChannels(Button, c.buttons, s.buttons, now, fault, |c.buttons|);
    DigitalLoopOrdered(Toggle, c.toggles, s.toggles, now, fault, |c.toggles|);
    DigitalLoopOrdered(Button, c.buttons, s.buttons, now, fault, |c.buttons|);
    assert forall i :: 0 <= i < |pots.events| ==> pots.events[i] == Event(Channel(Pot, i), s.pots[i]);
    assert Ordered(pots.events);
    OrderedConcat(pots.events, tog.events, 1);
    OrderedConcat(pots.events + tog.events, btn.events, 2);
  }

  /** The inputs of one pass. */
  datatype Round = Round(samples: Samples, now: int, fault: Option<Fault>)

  /** Every pass's readings fit the state arrays. */
  predicate FitsAll(c: Controller, rounds: seq<Round>) {
    forall k :: 0 <= k < |rounds| ==> Fits(c, rounds[k].samples)
  }

  /** The layout fixes the shape of the state arrays, so a controller that
      fits the first pass's readings fits every later pass's readings too. */
  lemma FitsAllRest(c: Controller, c2: Controller, rounds: seq<Round>)
    requires FitsAll(c, rounds) && |rounds| > 0 && Fits(c2, rounds[0].samples)
    ensures FitsAll(c2, rounds[1..])
  {
    forall k | 0 <= k < |rounds[1..]| ensures Fits(c2, rounds[1..][k].samples) {
      assert rounds[1..][k] == rounds[k + 1];
    }
  }

  /** Fitting depends only on the shape of the state arrays. */
  lemma FitsAllSame(c: Controller, c2: Controller, rounds: seq<Round>)
    requires FitsAll(c, rounds)
    requires |c2.toggles| == |c.toggles| && |c2.buttons| == |c.buttons|
    ensures FitsAll(c2, rounds)
  {
  }

  /** Two batches of passes that each fit fit as one batch. */
  lemma FitsAllConcat(c: Controller, a: seq<Round>, b: seq<Round>)
    requires FitsAll(c, a) && FitsAll(c, b)
    ensures FitsAll(c, a + b)
  {
    forall k | 0 <= k < |a + b| ensures Fits(c, (a + b)[k].samples) {
      if k < |a| {
        assert (a + b)[k] == a[k];
      } else {
        assert (a + b)[k] == b[k - |a|];
      }
    }
  }

  /** The main loop over a sequence of passes. A pass cut short by an exception
      is followed by the next pass, which starts from whatever state the broken
      pass had committed. Returns the final state and every event sent, in order. */
  function Run(c: Controller, rounds: seq<Round>): (r: (Controller, seq<Event>))
    requires FitsAll(c, rounds)
    ensures |r.0.toggles| == |c.toggles| && |r.0.buttons| == |c.buttons|
    decreases |rounds|
  {
    if |rounds| == 0 then (c, [])
    else
      var o := Cycle(c, rounds[0].samples, rounds[0].now, rounds[0].fault);
      FitsAllRest(c, o.controller, rounds);
      var rest := Run(o.controller, rounds[1..]);
      (rest.0, o.events + rest.1)
  }

  /** Passes that fit a controller fit whatever state a run leaves it in. */
  lemma RunFits(c: Controller, a: seq<Round>, b: seq<Round>)
    requires FitsAll(c, a) && FitsAll(c, b)
    ensures FitsAll(c, a + b)
    ensures FitsAll(Run(c, a).0, b)
  {
    FitsAllConcat(c, a, b);
    FitsAllSame(c, Run(c, a).0, b);
  }

  /** Running two batches of passes one after the other leaves the state
      arrays as running them as one batch does: the second batch starts from
      the state the first left. */
  lemma {:induction false} RunSplitState(c: Controller, a: seq<Round>, b: seq<Round>)
    requires FitsAll(c, a) && FitsAll(c, b) && FitsAll(c, a + b) && FitsAll(Run(c, a).0, b)
    ensures Run(c, a + b).0 == Run(Run(c, a).0, b).0
    decreases |a|
  {
    if |a| > 0 {
      var o := Cycle(c, a[0].samples, a[0].now, a[0].fault);
      assert (a + b)[1..] == a[1..] + b;
      assert (a + b)[0] == a[0];
      FitsAllRest(c, o.controller, a);
      FitsAllRest(c, o.controller, a + b);
      RunFits(o.controller, a[1..], b);
      RunSplitState(o.controller, a[1..], b);
    } else {
      assert a + b == b;
    }
  }

  /** Running two batches of passes one after the other sends what running
      them as one batch sends: the second batch's events, sent from the
      state the first left, follow the first batch's. */
  lemma {:induction false} RunSplitEvents(c: Controller, a: seq<Round>, b: seq<Round>)
    requires FitsAll(c, a) && FitsAll(c, b) && FitsAll(c, a + b) && FitsAll(Run(c, a).0, b)
    ensures Run(c, a + b).1 == Run(c, a).1 + Run(Run(c, a).0, b).1
    decreases |a|
  {
    if |a| > 0 {
      var o := Cycle(c, a[0].samples, a[0].now, a[0].fault);
      var e := o.events;
      assert (a + b)[1..] == a[1..] + b;
      assert (a + b)[0] == a[0];
      FitsAllRest(c, o.controller, a);
      FitsAllRest(c, o.controller, a + b);
      RunFits(o.controller, a[1..], b);
      RunSplitEvents(o.controller, a[1..], b);
      AppendAssoc(e, Run(o.controller, a[1..]).1, Run(Run(o.controller, a[1..]).0, b).1);
    } else {
      assert a + b == b;
    }
  }

  /** Concatenation of event lists is associative. */
  lemma AppendAssoc(x: seq<Event>, y: seq<Event>, z: seq<Event>)
    ensures x + (y + z) == (x + y) + z
  {
  }
}

=== FILE: layout.dfy ===
/** The fixed channel layout of the control surface: four MCP3008 converters
    on one SPI bus, each with eight input pins P0-P7, split into three groups
    of channels numbered from 0 within each group. */
module Layout {
  import opened Options

  /** The three kinds of control. Each has its own OSC address namespace. */
  datatype Group = Pot | Toggle | Button

  /** A channel is identified by its group and its index within that group. */
  datatype Channel = Channel(group: Group, index: nat)

  /** A converter input: the position of the chip in the chip-select list
      (0 = D5, 1 = D6, 2 = D13, 3 = D19) and the pin number on that chip. */
  datatype Pin = Pin(chip: nat, pin: nat)

  const ChipCount: nat := 4
  const PinsPerChip: nat := 8

  predicate ValidPin(p: Pin) {
    p.chip < ChipCount && p.pin < PinsPerChip
  }

  /** Pins lo, lo+1, ..., hi-1 of one chip, in the order the source appends them. */
  function ChipPins(chip: nat, lo: nat, hi: nat): (ps: seq<Pin>)
    requires lo <= hi
    ensures |ps| == hi - lo
    ensures forall k :: 0 <= k < |ps| ==> ps[k] == Pin(chip, lo + k)
  {
    seq(hi - lo, k requires 0 <= k < hi - lo => Pin(chip, lo + k))
  }

  /** Potentiometers: chip 0, pins P0-P5. */
  function PotPins(): seq<Pin> {
    ChipPins(0, 0, 6)
  }

  /** Toggles: all of chip 1, all of chip 2, then P0-P3 of chip 3, appended in that order. */
  function TogglePins(): seq<Pin> {
    ChipPins(1, 0, 8) + ChipPins(2, 0, 8) + ChipPins(3, 0, 4)
  }

  /** Push-buttons: P4-P7 of chip 3. */
  function ButtonPins(): seq<Pin> {
    ChipPins(3, 4, 8)
  }

  function GroupPins(g: Group): seq<Pin> {
    match g
    case Pot => PotPins()
    case Toggle => TogglePins()
    case Button => ButtonPins()
  }

  /** Number of channels in a group, the length of its state arrays. */
  function GroupSize(g: Group): nat {
    |GroupPins(g)|
  }

  /** The converter input a channel is bound to, or None for an index past the group's end. */
  function PinOf(c: Channel): (r: Option<Pin>)
    ensures r.Some? <==> c.index < GroupSize(c.group)
    ensures r.Some? ==> ValidPin(r.value) && r.value in GroupPins(c.group)
  {
    if c.index < GroupSize(c.group) then Some(GroupPins(c.group)[c.index]) else None
  }

  /** The channel bound to a converter input, worked out from the wiring
      rather than by searching the lists; None for an unused input. */
  function ChannelOn(p: Pin): Option<Channel> {
    if p.pin >= PinsPerChip then None
    else if p.chip == 0 then (if p.pin < 6 then Some(Channel(Pot, p.pin)) else None)
    else if p.chip == 1 then Some(Channel(Toggle, p.pin))
    else if p.chip == 2 then Some(Channel(Toggle, 8 + p.pin))
    else if p.chip == 3 then
      (if p.pin < 4 then Some(Channel(Toggle, 16 + p.pin)) else Some(Channel(Button, p.pin - 4)))
    else None
  }

  lemma GroupSizes()
    ensures GroupSize(Pot) == 6 && GroupSize(Toggle) == 20 && GroupSize(Button) == 4
  {
  }

  /** Toggle i sits on chip 1 + i div 8 at pin i mod 8 for the first sixteen,
      and on chip 3 at pin i - 16 for the last four. */
  lemma TogglePinLayout(i: nat)
    requires i < GroupSize(Toggle)
    ensures i < 16 ==> PinOf(Channel(Toggle, i)) == Some(Pin(1 + i / 8, i % 8))
    ensures 16 <= i ==> PinOf(Channel(Toggle, i)) == Some(Pin(3, i - 16))
  {
    var a, b, c := ChipPins(1, 0, 8), ChipPins(2, 0, 8), ChipPins(3, 0, 4);
    assert TogglePins() == a + b + c;
    if i < 8 {
      assert TogglePins()[i] == a[i];
    } else if i < 16 {
      assert TogglePins()[i] == b[i - 8];
    } else {
      assert TogglePins()[i] == c[i - 16];
    }
  }

  /** Button j sits on chip 3 at pin 4 + j. */
  lemma ButtonPinLayout(j: nat)
    requires j < GroupSize(Button)
    ensures PinOf(Channel(Button, j)) == Some(Pin(3, 4 + j))
  {
  }

  /** Every channel of the layout is bound to a real converter input, and
      the wiring map recovers the channel from it. */
  lemma {:induction false} PinOfRoundTrip(c: Channel)
    requires PinOf(c).Some?
    ensures ValidPin(PinOf(c).value)
    ensures ChannelOn(PinOf(c).value) == Some(c)
  {
    match c.group
    case Pot => {}
    case Toggle => TogglePinLayout(c.index);
    case Button => ButtonPinLayout(c.index);
  }

  /** Every converter input the wiring map assigns is the one the layout binds. */
  lemma {:induction false} ChannelOnRoundTrip(p: Pin)
    requires ChannelOn(p).Some?
    ensures PinOf(ChannelOn(p).value) == Some(p)
  {
    var c := ChannelOn(p).value;
    if c.group == Toggle {
      TogglePinLayout(c.index);
    }
  }

  /** No two channels share a converter input, across all three groups. */
  lemma PinsDistinct(c1: Channel, c2: Channel)
    requires PinOf(c1).Some? && PinOf(c2).Some?
    requires c1 != c2
    ensures PinOf(c1) != PinOf(c2)
  {
    PinOfRoundTrip(c1);
    PinOfRoundTrip(c2);
  }
}

=== FILE: options.dfy ===
/** The optional value used for "no reading stored yet" (Python's `None`)
    and for lookups in the channel layout that can miss. */
module Options {

  datatype Option<+T> = None | Some(value: T)
}

=== FILE: run_properties.dfy ===
/** The main loop over many passes, seen from one toggle or push-button: when
    no exception is raised, the loop runs that channel's debounce gate over
    the clock readings and classified readings of successive passes, carrying
    its state from each pass to the next, and sends exactly the readings the
    gate accepts. This is what lets the debounce window, which only matters
    between passes, be stated for the loop itself. */
module RunProperties {
  import opened Options
  import opened Layout
  import opened Classifier
  import opened Debounce
  import opened Dispatch
  import opened CycleProperties

  /** The state array of a group; pots keep no state. */
  function StatesOf(c: Controller, g: Group): seq<ChannelState> {
    match g
    case Pot => []
    case Toggle => c.toggles
    case Button => c.buttons
  }

  /** The raw readings of a group in one pass. */
  function RawsOf(s: Samples, g: Group): seq<int> {
    match g
    case Pot => s.pots
    case Toggle => s.toggles
    case Button => s.buttons
  }

  /** Every pass fits the state arrays and raises no exception. */
  predicate Clean(c: Controller, rounds: seq<Round>) {
    && FitsAll(c, rounds)
    && forall r :: 0 <= r < |rounds| ==> rounds[r].fault == None
  }

  /** What one channel's gate is offered over a run: in each pass, the clock
      reading of that pass and the channel's classified reading. */
  function AttemptsOf(rounds: seq<Round>, ch: Channel): (a: seq<Attempt>)
    requires forall r :: 0 <= r < |rounds| ==> ch.index < |RawsOf(rounds[r].samples, ch.group)|
    ensures |a| == |rounds|
    decreases |rounds|
  {
    if |rounds| == 0 then []
    else [Attempt(rounds[0].now, Classify(RawsOf(rounds[0].samples, ch.group)[ch.index]))] + AttemptsOf(rounds[1..], ch)
  }

  /** The values sent on one channel, in the order they were sent. */
  function SentOn(es: seq<Event>, ch: Channel): seq<int>
    decreases |es|
  {
    if |es| == 0 then []
    else (if es[0].channel == ch then [es[0].value] else []) + SentOn(es[1..], ch)
  }

  /** The readings of a list of attempts, in order. */
  function ReadingsOf(acc: seq<Attempt>): seq<int>
    decreases |acc|
  {
    if |acc| == 0 then [] else [acc[0].reading as int] + ReadingsOf(acc[1..])
  }

  lemma {:induction false} SentOnConcat(a: seq<Event>, b: seq<Event>, ch: Channel)
    ensures SentOn(a + b, ch) == SentOn(a, ch) + SentOn(b, ch)
    decreases |a|
  {
    if |a| == 0 {
      assert a + b == b;
    } else {
      assert (a + b)[1..] == a[1..] + b;
      SentOnConcat(a[1..], b, ch);
    }
  }

  lemma {:induction false} ReadingsConcat(a: seq<Attempt>, b: seq<Attempt>)
    ensures ReadingsOf(a + b) == ReadingsOf(a) + ReadingsOf(b)
    decreases |a|
  {
    if |a| == 0 {
      assert a + b == b;
    } else {
      assert (a + b)[1..] == a[1..] + b;
      ReadingsConcat(a[1..], b);
    }
  }

  /** Events none of which is on the channel send nothing on it. */
  lemma {:induction false} SentOnAbsent(es: seq<Event>, ch: Channel)
    requires forall k :: 0 <= k < |es| ==> es[k].channel != ch
    ensures SentOn(es, ch) == []
    decreases |es|
  {
    if |es| > 0 {
      SentOnAbsent(es[1..], ch);
    }
  }

  /** Events of which exactly the i-th is on the channel send its value alone. */
  lemma {:induction false} SentOnSingle(es: seq<Event>, ch: Channel, i: nat)
    requires i < |es| && es[i].channel == ch
    requires forall k :: 0 <= k < |es| && k != i ==> es[k].channel != ch
    ensures SentOn(es, ch) == [es[i].value]
    decreases i
  {
    if i == 0 {
      SentOnAbsent(es[1..], ch);
    } else {
      SentOnSingle(es[1..], ch, i - 1);
    }
  }

  /** In one pass without an exception a toggle or button sends its
      classified reading once if its gate accepts, and nothing otherwise. */
  lemma CycleSentOn(c: Controller, s: Samples, now: int, ch: Channel)
    requires Fits(c, s)
    requires ch.group != Pot && ch.index < |StatesOf(c, ch.group)|
    ensures var v := Classify(RawsOf(s, ch.group)[ch.index]);
      SentOn(Cycle(c, s, now, None).events, ch)
        == if Accepts(StatesOf(c, ch.group)[ch.index], v, now) then [v] else []
  {
    var es := Cycle(c, s, now, None).events;
    var v := Classify(RawsOf(s, ch.group)[ch.index]);
    CycleFaultFreeEvents(c, s, now);
    CycleSound(c, s, now, None);
    NoChannelSentTwice(c, s, now, None);
    if Accepts(StatesOf(c, ch.group)[ch.index], v, now) {
      assert Event(ch, v) in es;
      var i :| 0 <= i < |es| && es[i] == Event(ch, v);
      forall k | 0 <= k < |es| && k != i
        ensures es[k].channel != ch
      {
        if k < i {
          assert es[k].channel != es[i].channel;
        } else {
          assert es[i].channel != es[k].channel;
        }
      }
      SentOnSingle(es, ch, i);
    } else {
      forall k | 0 <= k < |es|
        ensures es[k].channel != ch
      {
        assert Sound(es[k], c, s, now);
      }
      SentOnAbsent(es, ch);
    }
  }

  /** A clean run's first pass and the rest of it: the rest is clean from the
      state the first pass leaves. */
  lemma CleanRest(c: Controller, rounds: seq<Round>)
    requires Clean(c, rounds) && |rounds| > 0
    ensures Clean(Cycle(c, rounds[0].samples, rounds[0].now, None).controller, rounds[1..])
  {
    var o := Cycle(c, rounds[0].samples, rounds[0].now, None);
    FitsAllRest(c, o.controller, rounds);
    forall r | 0 <= r < |rounds[1..]| ensures rounds[1..][r].fault == None {
      assert rounds[1..][r] == rounds[r + 1];
    }
  }

  /** Across a run without exceptions each toggle's and button's state is
      carried from pass to pass: after the run it is exactly the gate replayed
      over the channel's readings, pass by pass, from its state before the run. */
  lemma {:induction false} RunStatesReplay(c: Controller, rounds: seq<Round>, ch: Channel)
    requires ch.group != Pot && ch.index < |StatesOf(c, ch.group)|
    requires Clean(c, rounds)
    ensures StatesOf(Run(c, rounds).0, ch.group)[ch.index]
            == Replay(StatesOf(c, ch.group)[ch.index], AttemptsOf(rounds, ch))
    decreases |rounds|
  {
    if |rounds| > 0 {
      var o := Cycle(c, rounds[0].samples, rounds[0].now, None);
      CycleFaultFreeStates(c, rounds[0].samples, rounds[0].now);
      CleanRest(c, rounds);
      RunStatesReplay(o.controller, rounds[1..], ch);
      var a := AttemptsOf(rounds, ch);
      assert a[1..] == AttemptsOf(rounds[1..], ch);
      assert StatesOf(o.controller, ch.group)[ch.index]
             == Gate(StatesOf(c, ch.group)[ch.index], a[0].reading, a[0].time).state;
    }
  }

  /** Across a run without exceptions each toggle and button sends, in order,
      exactly the readings its gate accepts when replayed over the run. */
  lemma {:induction false} RunSendsAccepted(c: Controller, rounds: seq<Round>, ch: Channel)
    requires ch.group != Pot && ch.index < |StatesOf(c, ch.group)|
    requires Clean(c, rounds)
    ensures SentOn(Run(c, rounds).1, ch)
            == ReadingsOf(Accepted(StatesOf(c, ch.group)[ch.index], AttemptsOf(rounds, ch)))
    decreases |rounds|
  {
    if |rounds| > 0 {
      var o := Cycle(c, rounds[0].samples, rounds[0].now, None);
      var st := StatesOf(c, ch.group)[ch.index];
      CycleFaultFreeStates(c, rounds[0].samples, rounds[0].now);
      CycleSentOn(c, rounds[0].samples, rounds[0].now, ch);
      CleanRest(c, rounds);
      RunSendsAccepted(o.controller, rounds[1..], ch);
      SentOnConcat(o.events, Run(o.controller, rounds[1..]).1, ch);
      var a := AttemptsOf(rounds, ch);
      assert a[1..] == AttemptsOf(rounds[1..], ch);
      var v := Gate(st, a[0].reading, a[0].time);
      assert StatesOf(o.controller, ch.group)[ch.index] == v.state;
      ReadingsConcat(if v.accepted then [a[0]] else [], Accepted(v.state, a[1..]));
    }
  }

  /** The loop itself reports a steady reading once: from a state already
      holding value v, a run without exceptions in which the channel keeps
      reading v sends nothing on it and leaves its state alone, whatever the
      clock readings. */
  lemma RunSteadyReadingSilent(c: Controller, rounds: seq<Round>, ch: Channel, v: Bit)
    requires ch.group != Pot && ch.index < |StatesOf(c, ch.group)|
    requires Clean(c, rounds)
    requires StatesOf(c, ch.group)[ch.index].previous == Some(v)
    requires forall r :: 0 <= r < |rounds| ==> Classify(RawsOf(rounds[r].samples, ch.group)[ch.index]) == v
    ensures SentOn(Run(c, rounds).1, ch) == []
    ensures StatesOf(Run(c, rounds).0, ch.group)[ch.index] == StatesOf(c, ch.group)[ch.index]
  {
    var st := StatesOf(c, ch.group)[ch.index];
    var a := AttemptsOf(rounds, ch);
    RunStatesReplay(c, rounds, ch);
    RunSendsAccepted(c, rounds, ch);
    AttemptsReadings(rounds, ch, v);
    forall k | 0 <= k < |a| ensures Blocked(st, a[k]) {
      assert a[k].reading == v;
    }
    BlockedRunChangesNothing(st, a);
  }

  /** A lost event stays lost for good: once a toggle's or button's send has
      raised, with its new value already committed, no later run without
      exceptions in which the channel keeps reading that value ever sends it,
      and the channel keeps the state committed in the failed pass. */
  lemma LostEventNeverResent(c: Controller, s: Samples, now: int, ch: Channel, rounds: seq<Round>)
    requires Fits(c, s)
    requires ch.group != Pot && ch.index < |StatesOf(c, ch.group)|
    requires Accepts(StatesOf(c, ch.group)[ch.index], Classify(RawsOf(s, ch.group)[ch.index]), now)
    requires Clean(c, rounds)
    requires forall r :: 0 <= r < |rounds| ==>
               Classify(RawsOf(rounds[r].samples, ch.group)[ch.index]) == Classify(RawsOf(s, ch.group)[ch.index])
    ensures var r := Cycle(c, s, now, Some(SendFault(ch)));
      && SentOn(r.events, ch) == []
      && SentOn(Run(r.controller, rounds).1, ch) == []
      && StatesOf(Run(r.controller, rounds).0, ch.group)[ch.index]
         == ChannelState(Some(Classify(RawsOf(s, ch.group)[ch.index])), now)
  {
    var v := Classify(RawsOf(s, ch.group)[ch.index]);
    var r := Cycle(c, s, now, Some(SendFault(ch)));
    if ch.group == Toggle {
      ToggleSendFailure(c, s, now, ch.index);
    } else {
      ButtonSendFailure(c, s, now, ch.index);
    }
    forall j | 0 <= j < |r.events| ensures r.events[j].channel != ch {
      assert r.events[j] in r.events;
    }
    SentOnAbsent(r.events, ch);
    assert StatesOf(r.controller, ch.group)[ch.index] == ChannelState(Some(v), now);
    FitsAllSame(c, r.controller, rounds);
    RunSteadyReadingSilent(r.controller, rounds, ch, v);
  }

  /** Every attempt of the run carries the reading the channel classified. */
  lemma {:induction false} AttemptsReadings(rounds: seq<Round>, ch: Channel, v: Bit)
    requires forall r :: 0 <= r < |rounds| ==> ch.index < |RawsOf(rounds[r].samples, ch.group)|
    requires forall r :: 0 <= r < |rounds| ==> Classify(RawsOf(rounds[r].samples, ch.group)[ch.index]) == v
    ensures forall k :: 0 <= k < |rounds| ==> AttemptsOf(rounds, ch)[k].reading == v
    decreases |rounds|
  {
    if |rounds| > 0 {
      AttemptsReadings(rounds[1..], ch, v);
      var a := AttemptsOf(rounds, ch);
      forall k | 1 <= k < |rounds| ensures a[k].reading == v {
        assert a[k] == AttemptsOf(rounds[1..], ch)[k - 1];
      }
    }
  }
}
